=== FILE: README.md ===
# Workout assistant: decision logic in Dafny

This project models the pure decision logic of a small fitness web app. The app has two pages.

- **Chat page** (`workout.py`). The user asks about exercises. A language model classifies the question into a muscle group, or "none". An exercise catalog service is asked for exercises for that group. The app then builds one of three prompt message lists, streams the model's answer, and records both the question and the answer in the session transcript. An equipment table (name, purpose) supplies the equipment list for the prompt and answers purpose lookups by name, ignoring case.
- **Analysis page** (`analysis.py`). It loads the user's workout log and computes statistics: first and last day, the inclusive span in days, the number of entries, the number of distinct active days, and frequency tables by muscle group, workout type and difficulty. It asks a language model for an analysis, which is returned under an "Analysis Period" header or replaced by a fallback error text. It also shows the log filtered by three optional selections ("All" means no constraint) and sorted newest first.

Every external answer is an input to the model:
- the language model's classification is an `Option<string>`;
- the catalog service is a function from the query to a `Result`;
- the completion stream is a `StreamResult` (the chunk deltas, or a failure after some chunks);
- the analysis reply is a function from the statistics to a `Result`;
- reading the log file is a `LogSource`.

Dates are integer day numbers. Rendering a day as text is a parameter `formatDate`.

Modules:
- `Wrappers`: `Option` and `Result`.
- `Text`: lower-casing and case swapping, prefix slicing, join and split, and decimal rendering of a number.
- `Catalog`: the equipment table.
- `Exercises`: classification, exercise lookup and the exercise summary.
- `Chat`: message composition, streaming and the transcript.
- `History`: loading the log, statistics and the analysis text.
- `View`: filters and sorting.

## Model

| member | source | states |
|---|---|---|
| `Catalog.LoadEquipment` | workout.py:7-14 | A failed table read gives an empty catalog. A successful read gives the rows as read. |
| `Catalog.AvailableEquipment` | workout.py:37-39 | There is one name per catalog row, in catalog order, so the list is as long as the catalog. |
| `Catalog.PurposeOf` | workout.py:41-46 | The answer is the purpose of the first row whose name equals the asked name ignoring case. It is exactly "Purpose not found" when no row matches. The function is total. |
| `Catalog.PurposeIgnoresCase` | workout.py:44 | Two names with the same lower-case form get the same answer. |
| `Catalog.PurposeOfSwapCase` | workout.py:41-46 | Swapping the case of the asked name does not change the answer. |
| `Catalog.ListedNamesAreFound` | workout.py:37-46 | Every listed equipment name gets the purpose of some row at or before its own position, never a failure. |
| `Text.Take` | workout.py:135 | Slicing `[:100]` gives a prefix of the text of length min(100, length). |
| `Text.SplitJoin` | workout.py:134-137 | Splitting a newline-joined text on newlines gives the parts back, when no part contains a newline. |
| `Text.NatToDecimal` | analysis.py:55 | The day count is rendered as non-empty decimal digits with no leading zero, and 0 as "0". |
| `Text.DecimalRoundTrip` | analysis.py:55 | Reading the rendered digits back gives the number. |
| `Exercises.ExtractMuscleGroup` | workout.py:98-114 | Any failure of the classification call gives exactly "none". Otherwise the result is the reply lower-cased. The result is always lower-case. |
| `Exercises.GetExerciseInfo` | workout.py:23-35 | The service is asked with the lower-cased group. A failed request gives no records. A successful one gives the records returned. |
| `Exercises.LookupIgnoresCase` | workout.py:27 | Two groups with the same lower-case form get the same lookup result, so the lookup does not depend on the case of the group. |
| `Exercises.LookupIgnoresSwapCase` | workout.py:27 | Swapping the case of the group leaves the lookup result unchanged. |
| `Exercises.FormatExercise` | workout.py:135 | A line is a bullet, the name and ": ". Then come the first min(100, length) characters of the instructions, then "...". |
| `Exercises.Listed` | workout.py:136 | Only the first three records are used, or all of them if there are fewer. |
| `Exercises.ExerciseSummary` | workout.py:134-137 | The summary is empty exactly when there are no records. Otherwise it starts with the first record's line. |
| `Exercises.SummaryLines` | workout.py:134-137 | The summary has exactly min(3, n) lines. Line i is the formatted record i. This holds when no listed record has a line break in its name or in the first 100 characters of its instructions. |
| `Chat.SystemPrompt` | workout.py:140-157 | The system message starts with the instructor line. Right after it come "\nAvailable equipment: ", the equipment names joined by ", ", and ".". With guidance it ends with the advice guidance. Without guidance it ends with the period after the equipment list. Its length is fixed by the equipment list and the choice of guidance. |
| `Chat.ComposeMessages` | workout.py:129-159 | The list starts with a system message, then the user's input. It has exactly two messages when the group is "none", and three otherwise, the third from the assistant. |
| `Chat.NoneBranchSkipsLookup` | workout.py:154-159 | With "none" the list is [system, user] and does not depend on the lookup, so no lookup takes place. |
| `Chat.FoundBranchEmbedsSummary` | workout.py:132-146 | With a group and at least one record, whatever the records hold, the list is [system with the advice guidance, user, assistant]. The assistant message is the found header, a line break and the exercise summary, which starts with the first record's line. |
| `Chat.FoundBranchListsExercises` | workout.py:132-146 | With a group and at least one record, when the group has no line break and no listed record has one in its name or in the first 100 characters of its instructions, the system message carries the advice guidance. The assistant message is the found header line, then one line per listed record, in order. |
| `Chat.FoundNoteLines` | workout.py:145 | When the group has no line break and no listed record has one in its name or in the first 100 characters of its instructions, the found note splits into its header line followed by the summary's lines. |
| `Chat.NotFoundBranchIsDistinct` | workout.py:147-153 | With a group but no record, the list is [system, user, the not-found note]. It differs from the "none" list. |
| `Chat.StreamedTextAppend` | workout.py:86-88 | The text of two chunk runs read one after the other is their two texts concatenated. |
| `Chat.StreamedTextGrows` | workout.py:86-89 | The text accumulated after i chunks is a prefix of the text after j ≥ i chunks. |
| `Chat.StreamResponse` | workout.py:83-91 | The loop returns the concatenation of the non-null deltas in order. Each non-null chunk yields one partial text. Each partial is a prefix of the later ones and of the result, and the last partial is the result. |
| `Chat.TurnMessages` | workout.py:129-159 | The list sent for an input starts with a system message, then the input as a user message. It has only these two messages exactly when classification failed or gave "none" in any letter case. Otherwise a third message comes from the assistant. |
| `Chat.GenerateChatResponse` | workout.py:70-96 | A completed stream gives its streamed text. Any failure gives exactly the apology, whatever chunks arrived before it. |
| `Chat.ChatTurn` | workout.py:123-163 | A turn keeps the old transcript and appends exactly one user message with the input, then one assistant message. On success the assistant message is the streamed text. On failure it is the apology. |
| `Chat.TurnIgnoresTranscript` | workout.py:129-162 | The two appended messages do not depend on the earlier transcript, which is never sent. |
| `Chat.SessionAlternates` | workout.py:123-163 | After n inputs the transcript has 2n messages. Even positions hold the inputs as user messages, in order. Odd positions hold assistant messages. |
| `History.LoadWorkoutLog` | analysis.py:62-78 | A missing file, malformed JSON and an empty list all give "no data". Otherwise the result is the decoded entries, never empty. |
| `History.EarliestDate` | analysis.py:18 | The first day is a day of the log and no later than any entry. |
| `History.LatestDate` | analysis.py:19 | The last day is a day of the log and no earlier than any entry. |
| `History.ActiveDatesAtMostEntries` | analysis.py:21-22 | There are no more distinct active days than entries. |
| `History.ActiveDatesBounds` | analysis.py:18-22 | A non-empty log has at least one active day. There are no more active days than entries, and no more than the days from the first to the last day. |
| `History.Frequencies` | analysis.py:23-25 | The table's keys are exactly the values that occur. Each count is that value's number of occurrences. |
| `History.FrequenciesTotal` | analysis.py:23-25 | The counts over the distinct values add up to the number of values. |
| `History.Summarize` | analysis.py:18-25 | total_days = last − first + 1 ≥ 1. The entry count is the log length. 1 ≤ days_active ≤ the entry count, and days_active ≤ total_days. The three tables are the frequency tables of their columns. |
| `History.SummaryTablesCountEveryEntry` | analysis.py:23-25 | In each of the three tables the counts add up to the entry count. |
| `History.PeriodHeader` | analysis.py:55 | The header starts with "\nAnalysis Period: " and ends with " (", the span's digits and " days)". The digits read back as the span in days. |
| `History.GetAiAnalysis` | analysis.py:8-60 | On success the result is the period header, a blank line and the model's text. On any failure it is exactly "Unable to generate AI analysis: " and the error text. The log is non-empty, because the page asks for an analysis only after a load that returned entries (analysis.py:69-71, 139, 148). |
| `History.AnalysisOutcomeIsRecognisable` | analysis.py:55-60 | For a non-empty log, the result starts with "\nAnalysis Period: " exactly when the request succeeded. It starts with the fallback prefix exactly when it failed. No partial analysis is ever returned. |
| `History.PeriodHeaderReportsSpan` | analysis.py:55 | The header names the first and last day. The number in its parentheses reads back as last − first + 1. |
| `History.TwoEntryExample` | analysis.py:18-25 | A chest entry and a back entry two days apart give a 3-day span, 2 active days and {chest: 1, back: 1}. |
| `View.KeepWhereKeepsExactly` | analysis.py:202 | A filter keeps only passing entries. Each passing entry is kept as many times as it occurs in the input, so the result is a sub-multiset of the input. |
| `View.KeepWhereAgrees` | analysis.py:200-206 | Two tests that agree on every entry keep the same entries. |
| `View.KeepWhereTwice` | analysis.py:200-206 | Filtering by p and then by q is one filter by "p and q", and the original order is kept. |
| `View.FilterOrderIrrelevant` | analysis.py:200-206 | The order in which two filters are applied does not change the result. |
| `View.ApplySelectionIsKeepWhere` | analysis.py:201-202 | One selection keeps exactly the entries it admits. "All" admits every entry. |
| `View.KeepAllIsIdentity` | analysis.py:200 | A filter every entry passes returns the input unchanged. |
| `View.FilterEntries` | analysis.py:200-206 | The three selections in sequence are one order-preserving filter by their conjunction. Every kept entry passes each non-"All" selection. Every input entry passing all of them is kept as often as it occurs. |
| `View.AllSelectionsKeepEverything` | analysis.py:200-206 | With every selection "All" the filtered log is the whole log. |
| `View.HeadIsNewest` | analysis.py:215 | An entry older than the head of a newest-first list goes after the head. |
| `View.InsertByDate` | analysis.py:215 | Inserting into a newest-first list keeps it newest first. The result holds the old entries plus the new one. |
| `View.SortByDateDescending` | analysis.py:215 | The result is a permutation of the input, in non-increasing date order. |
| `View.DisplayedHistory` | analysis.py:200-217 | The table is a permutation of the filtered entries, newest first. It holds exactly the entries passing every selection, each as many times as in the log. |

## Left out

- Text.Lower: only the ASCII letters are case-mapped. Python's `str.lower` maps all of Unicode, so two non-ASCII names that Python treats as equal ignoring case may not match in the model.
- View.SortByDateDescending: the model makes no claim about the order of entries with the same day. pandas' default `sort_values` is not stable.
- History.Frequencies: the table is a map. pandas' `value_counts` also orders values by descending count, with ties in no promised order. That ordering only affects prompt wording.
- Exercises.ExtractMuscleGroup: the reply is lower-cased, not trimmed, as in the code; a reply such as "chest." is passed on as is.
- Dates: dates are whole days. Time-of-day parts of the logged dates, and how `(max - min).days` rounds them, are not modelled. `strftime` is the parameter `formatDate`.
- Prompt wording: the analysis prompt text and the classification prompt are left out, because only the external service reads them. The analysis reply is a function of the statistics alone. The chat system messages keep their wording but not the indentation inside the triple-quoted literals, nor the trailing spaces before the line breaks of the found-branch message (workout.py:140-142).
- Non-streamed branch: the non-streamed branch of `generate_chat_response` (workout.py:92-93) is never used, because the only call uses the default `stream=True`.
- Service parameters: the `functions` schema, model names, `temperature` and `max_tokens` are service parameters with no local behaviour.
- Streamlit: widgets, session state, spinners, the "▌" cursor shown while streaming, and `st.error` / `st.warning` messages are UI plumbing. So are the metrics row and the "Tracking since" line (analysis.py:139-159), the selectbox option lists (analysis.py:186-197) and the sidebar table.
- Charts and export: the Altair charts (analysis.py:80-132) and the CSV export (analysis.py:219-227) are library calls. The workout-type and muscle-group bar charts count with `value_counts` (analysis.py:105, 122), which is `History.Frequencies`. The activity heatmap's count of entries per day (analysis.py:85) is not modelled.
- Caching and file I/O: `@st.cache_data` caching and the CSV/JSON reading are I/O. Only their outcomes are modelled: a failed equipment read gives an empty table, and a missing, malformed or empty log gives no data.
- Uncaught faults: exceptions the source does not catch are not modelled. Examples are a record without `instructions`, a non-empty JSON reply that is not a list, and a date that `pd.to_datetime` rejects. Records are typed in the model.
- Failure wording: any exception inside the classification call (including a missing content) is `None`. For the analysis, any failure of the request, including a missing content, is a `Failure` carrying its text.

=== FILE: catalog.dfy ===
/** The equipment catalog of the chat page (workout.py): a table of
    equipment names and purposes, loaded once, listed in table order and
    searched by name without regard to case. */
module Catalog {
  import opened Wrappers
  import opened Text

  /** One row of the equipment table: its "Equipment Name" and "Purpose". */
  datatype EquipmentItem = EquipmentItem(name: string, purpose: string)

  /** The answer for a name that matches no row. */
  const PurposeNotFound: string := "Purpose not found"

  /** Loading the table: the rows read, or no rows at all when reading
      failed (the failure is only reported to the user). */
  function LoadEquipment(table: Result<seq<EquipmentItem>, string>): (catalog: seq<EquipmentItem>)
    ensures table.Failure? ==> catalog == []
    ensures table.Success? ==> catalog == table.value
  {
    match table
    case Success(rows) => rows
    case Failure(_) => []
  }

  /** The equipment names, one per row, in table order. */
  function AvailableEquipment(catalog: seq<EquipmentItem>): (names: seq<string>)
    ensures |names| == |catalog|
    ensures forall i :: 0 <= i < |catalog| ==> names[i] == catalog[i].name
  {
    if catalog == [] then []
    else [catalog[0].name] + AvailableEquipment(catalog[1..])
  }

  /** A row answers to `name` when the two names agree once lower-cased. */
  predicate NameMatches(item: EquipmentItem, name: string)
  {
    Lower(item.name) == Lower(name)
  }

  /** The purpose of the first row whose name matches `name` ignoring case,
      or the not-found answer when no row matches. */
  function PurposeOf(catalog: seq<EquipmentItem>, name: string): (purpose: string)
    ensures forall i :: 0 <= i < |catalog| && NameMatches(catalog[i], name) &&
                        (forall j :: 0 <= j < i ==> !NameMatches(catalog[j], name))
                        ==> purpose == catalog[i].purpose
    ensures (forall i :: 0 <= i < |catalog| ==> !NameMatches(catalog[i], name))
            ==> purpose == PurposeNotFound
  {
    if catalog == [] then PurposeNotFound
    else if NameMatches(catalog[0], name) then catalog[0].purpose
    else PurposeOf(catalog[1..], name)
  }

  /** Two names with the same lower-case form get the same answer. */
  lemma {:induction false} PurposeIgnoresCase(catalog: seq<EquipmentItem>, a: string, b: string)
    requires Lower(a) == Lower(b)
    ensures PurposeOf(catalog, a) == PurposeOf(catalog, b)
  {
    if catalog != [] {
      PurposeIgnoresCase(catalog[1..], a, b);
    }
  }

  /** Swapping the case of the asked name does not change the answer. */
  lemma PurposeOfSwapCase(catalog: seq<EquipmentItem>, name: string)
    ensures PurposeOf(catalog, SwapCase(name)) == PurposeOf(catalog, name)
  {
    LowerOfSwapCase(name);
    PurposeIgnoresCase(catalog, SwapCase(name), name);
  }

  /** Every listed name finds a purpose: the one of the first row with that
      name ignoring case, which need not be the listed row itself. */
  lemma {:induction false} ListedNamesAreFound(catalog: seq<EquipmentItem>, k: nat)
    requires k < |catalog|
    ensures exists i :: 0 <= i <= k && PurposeOf(catalog, AvailableEquipment(catalog)[k]) == catalog[i].purpose
  {
    var name := AvailableEquipment(catalog)[k];
    if NameMatches(catalog[0], name) {
      assert PurposeOf(catalog, name) == catalog[0].purpose;
    } else {
      ListedNamesAreFound(catalog[1..], k - 1);
      var i :| 0 <= i <= k - 1 && PurposeOf(catalog[1..], AvailableEquipment(catalog[1..])[k - 1]) == catalog[1..][i].purpose;
      assert AvailableEquipment(catalog[1..])[k - 1] == name;
      assert PurposeOf(catalog, name) == catalog[i + 1].purpose;
    }
  }
}

=== FILE: chat.dfy ===
/** One turn of the chat page (workout.py): the three-way choice of prompt
    messages, the streamed completion and its failure answer, and the two
    messages every turn adds to the session transcript. */
module Chat {
  import opened Wrappers
  import opened Text
  import opened Exercises
  import Catalog

  datatype Role = System | User | Assistant

  datatype ChatMessage = ChatMessage(role: Role, content: string)

  /** The answer recorded when the completion request fails. */
  const Apology: string := "I'm having trouble generating a response right now. Please try again."

  const InstructorIntro: string := "You are a knowledgeable and friendly fitness instructor."
  const AdviceGuidance: string :=
    "Provide helpful, encouraging advice about exercises and suggest exercises using available equipment.\nKeep responses concise and engaging."

  /** The system message: the instructor persona, the equipment names
      joined by ", ", and, when exercises were found, the advice guidance. */
  function SystemPrompt(equipment: seq<string>, withGuidance: bool): (text: string)
    ensures |text| == |InstructorIntro| + |"\nAvailable equipment: "| + |Join(", ", equipment)| + 1
                      + (if withGuidance then 1 + |AdviceGuidance| else 0)
    ensures text[..|InstructorIntro|] == InstructorIntro
    ensures var line := "\nAvailable equipment: " + Join(", ", equipment) + ".";
      text[|InstructorIntro|..|InstructorIntro| + |line|] == line
    ensures withGuidance ==> text[|text| - |AdviceGuidance|..] == AdviceGuidance
    ensures !withGuidance ==> text[|text| - 1] == '.'
  {
    var line := "\nAvailable equipment: " + Join(", ", equipment) + ".";
    var guidance := if withGuidance then "\n" + AdviceGuidance else "";
    var text := InstructorIntro + line + guidance;
    ThreeParts(InstructorIntro, line, guidance);
    assert line[|line| - 1] == '.';
    assert withGuidance ==> guidance[1..] == AdviceGuidance;
    text
  }

  /** The first line of the synthetic assistant message when exercises were found. */
  function FoundHeader(muscle: string): string
  {
    "I found some exercises for " + muscle + ". Here are the details:"
  }

  function FoundNote(muscle: string, summary: string): string
  {
    FoundHeader(muscle) + "\n" + summary
  }

  function NotFoundNote(muscle: string): string
  {
    "While I couldn't find specific exercises for " + muscle
      + " in my database, I can provide general fitness advice based on our available equipment."
  }

  /** The messages sent for one user input, given the extracted muscle group.
      With "none" nothing is looked up and only the system and user messages
      are sent; otherwise the lookup decides between a synthetic assistant
      message listing the exercises found and one saying none were found. */
  function ComposeMessages(equipment: seq<string>, prompt: string, muscle: string,
                           fetch: string -> Result<seq<ExerciseRecord>, string>): (messages: seq<ChatMessage>)
    ensures 2 <= |messages| <= 3
    ensures messages[0].role == System
    ensures messages[1] == ChatMessage(User, prompt)
    ensures |messages| == 2 <==> muscle == NoMuscleGroup
    ensures |messages| == 3 ==> messages[2].role == Assistant
  {
    if muscle != NoMuscleGroup then
      var exercises := GetExerciseInfo(fetch, muscle);
      if exercises != [] then
        [ChatMessage(System, SystemPrompt(equipment, true)),
         ChatMessage(User, prompt),
         ChatMessage(Assistant, FoundNote(muscle, ExerciseSummary(exercises)))]
      else
        [ChatMessage(System, SystemPrompt(equipment, false)),
         ChatMessage(User, prompt),
         ChatMessage(Assistant, NotFoundNote(muscle))]
    else
      [ChatMessage(System, SystemPrompt(equipment, false)),
       ChatMessage(User, prompt)]
  }

  /** With the group "none" the composed messages are the system and user
      messages alone, and they are the same whatever the lookup would have
      answered: no lookup takes place. */
  lemma NoneBranchSkipsLookup(equipment: seq<string>, prompt: string,
                              fetch1: string -> Result<seq<ExerciseRecord>, string>,
                              fetch2: string -> Result<seq<ExerciseRecord>, string>)
    ensures ComposeMessages(equipment, prompt, NoMuscleGroup, fetch1)
         == [ChatMessage(System, SystemPrompt(equipment, false)), ChatMessage(User, prompt)]
    ensures ComposeMessages(equipment, prompt, NoMuscleGroup, fetch1)
         == ComposeMessages(equipment, prompt, NoMuscleGroup, fetch2)
  {
  }

  /** With a real group and at least one record, the assistant message is
      the found header followed by one line per listed record (at most
      three), provided the group and the listed records hold no line break;
      the system message carries the advice guidance. */
  lemma FoundBranchListsExercises(equipment: seq<string>, prompt: string, muscle: string,
                                  fetch: string -> Result<seq<ExerciseRecord>, string>)
    requires muscle != NoMuscleGroup
    requires '\n' !in muscle
    requires GetExerciseInfo(fetch, muscle) != []
    requires var exercises := GetExerciseInfo(fetch, muscle);
      forall i :: 0 <= i < |exercises| && i < MaxListedExercises ==> SingleLine(exercises[i])
    ensures var messages := ComposeMessages(equipment, prompt, muscle, fetch);
      var exercises := GetExerciseInfo(fetch, muscle);
      var lines := Split(messages[2].content, '\n');
      && |messages| == 3
      && messages[0].content == SystemPrompt(equipment, true)
      && lines[0] == FoundHeader(muscle)
      && |lines| == 1 + |Listed(exercises)|
      && forall i :: 1 <= i < |lines| ==> lines[i] == FormatExercise(exercises[i - 1])
    ensures var messages := ComposeMessages(equipment, prompt, muscle, fetch);
      messages[2].content == FoundHeader(muscle) + "\n" + ExerciseSummary(GetExerciseInfo(fetch, muscle))
  {
    var exercises := GetExerciseInfo(fetch, muscle);
    var messages := ComposeMessages(equipment, prompt, muscle, fetch);
    assert messages[2].content == FoundNote(muscle, ExerciseSummary(exercises));
    FoundNoteLines(muscle, exercises);
  }

  /** With a real group and at least one record, whatever the records
      hold: the system message carries the advice guidance, and the
      assistant message is the found header, a line break and the summary
      of the listed records, which starts with the first record's line. */
  lemma FoundBranchEmbedsSummary(equipment: seq<string>, prompt: string, muscle: string,
                                 fetch: string -> Result<seq<ExerciseRecord>, string>)
    requires muscle != NoMuscleGroup
    requires GetExerciseInfo(fetch, muscle) != []
    ensures var messages := ComposeMessages(equipment, prompt, muscle, fetch);
      var exercises := GetExerciseInfo(fetch, muscle);
      var summary := ExerciseSummary(exercises);
      && messages == [ChatMessage(System, SystemPrompt(equipment, true)),
                      ChatMessage(User, prompt),
                      ChatMessage(Assistant, FoundHeader(muscle) + "\n" + summary)]
      && FormatExercise(exercises[0]) <= summary
  {
  }

  lemma FoundNoteLines(muscle: string, exercises: seq<ExerciseRecord>)
    requires '\n' !in muscle
    requires exercises != []
    requires forall i :: 0 <= i < |exercises| && i < MaxListedExercises ==> SingleLine(exercises[i])
    ensures var lines := Split(FoundNote(muscle, ExerciseSummary(exercises)), '\n');
      && lines[0] == FoundHeader(muscle)
      && |lines| == 1 + |Listed(exercises)|
      && forall i :: 1 <= i < |lines| ==> lines[i] == FormatExercise(exercises[i - 1])
  {
    var header := FoundHeader(muscle);
    var summary := ExerciseSummary(exercises);
    NoLineBreakInHeader(muscle);
    SplitFirst(header, '\n', summary);
    assert FoundNote(muscle, summary) == header + ['\n'] + summary;
    SummaryLines(exercises);
    var lines := Split(FoundNote(muscle, summary), '\n');
    assert lines == [header] + Split(summary, '\n');
    forall i | 1 <= i < |lines|
      ensures lines[i] == FormatExercise(exercises[i - 1])
    {
      assert lines[i] == Split(summary, '\n')[i - 1];
    }
  }

  lemma NoLineBreakInHeader(muscle: string)
    requires '\n' !in muscle
    ensures '\n' !in FoundHeader(muscle)
  {
  }

  /** With a real group but no record, the assistant message says none were
      found; this list differs from the one for "none", which has no
      assistant message at all. */
  lemma NotFoundBranchIsDistinct(equipment: seq<string>, prompt: string, muscle: string,
                                 fetch: string -> Result<seq<ExerciseRecord>, string>)
    requires muscle != NoMuscleGroup
    requires GetExerciseInfo(fetch, muscle) == []
    ensures var messages := ComposeMessages(equipment, prompt, muscle, fetch);
      && messages == [ChatMessage(System, SystemPrompt(equipment, false)),
                      ChatMessage(User, prompt),
                      ChatMessage(Assistant, NotFoundNote(muscle))]
      && messages != ComposeMessages(equipment, prompt, NoMuscleGroup, fetch)
  {
  }

  /** The completion service's answer to a streamed request: the chunk
      deltas of a stream read to its end (a delta is `None` when the chunk
      carries no text), or an exception raised by the request or while
      reading, after some chunks may already have arrived. */
  datatype StreamResult =
    | Completed(deltas: seq<Option<string>>)
    | Broken(received: seq<Option<string>>, error: string)

  function DeltaText(delta: Option<string>): string
  {
    match delta
    case Some(text) => text
    case None => ""
  }

  /** The text of a stream: its non-null deltas concatenated in order. */
  function StreamedText(deltas: seq<Option<string>>): string
  {
    if deltas == [] then ""
    else StreamedText(deltas[..|deltas| - 1]) + DeltaText(deltas[|deltas| - 1])
  }

  /** The number of chunks that carry text. */
  function TextChunks(deltas: seq<Option<string>>): nat
  {
    if deltas == [] then 0
    else TextChunks(deltas[..|deltas| - 1]) + (if deltas[|deltas| - 1].Some? then 1 else 0)
  }

  /** The text of two streams read one after the other is the two texts joined. */
  lemma {:induction false} StreamedTextAppend(a: seq<Option<string>>, b: seq<Option<string>>)
    ensures StreamedText(a + b) == StreamedText(a) + StreamedText(b)
    decreases |b|
  {
    if b == [] {
      assert a + b == a;
    } else {
      var b' := b[..|b| - 1];
      assert (a + b)[..|a + b| - 1] == a + b';
      assert (a + b)[|a + b| - 1] == b[|b| - 1];
      StreamedTextAppend(a, b');
    }
  }

  /** The text read so far only grows: the text after the first `i` chunks
      is a prefix of the text after the first `j >= i` chunks. */
  lemma StreamedTextGrows(deltas: seq<Option<string>>, i: nat, j: nat)
    requires i <= j <= |deltas|
    ensures StreamedText(deltas[..i]) <= StreamedText(deltas[..j])
  {
    assert deltas[..j] == deltas[..i] + deltas[i..j];
    StreamedTextAppend(deltas[..i], deltas[i..j]);
  }

  /** Each text is a prefix of every later one. */
  predicate PrefixChain(texts: seq<string>)
  {
    forall i, j :: 0 <= i <= j < |texts| ==> texts[i] <= texts[j]
  }

  /** Extending the last text of a chain and appending the result keeps a
      chain whose every text is a prefix of the new last one. */
  lemma PrefixChainExtend(partials: seq<string>, last: string, text: string)
    requires PrefixChain(partials)
    requires partials != [] ==> partials[|partials| - 1] == last
    ensures PrefixChain(partials + [last + text])
    ensures forall i :: 0 <= i < |partials| ==> partials[i] <= last + text
  {
    forall i | 0 <= i < |partials|
      ensures partials[i] <= last + text
    {
      assert partials[i] <= last;
    }
  }

  /** Reading one more chunk adds its text, and counts it when it carries text. */
  lemma StreamStep(deltas: seq<Option<string>>, n: nat)
    requires n < |deltas|
    ensures StreamedText(deltas[..n + 1]) == StreamedText(deltas[..n]) + DeltaText(deltas[n])
    ensures TextChunks(deltas[..n + 1]) == TextChunks(deltas[..n]) + (if deltas[n].Some? then 1 else 0)
  {
    assert deltas[..n + 1][..n] == deltas[..n];
    assert deltas[..n + 1][n] == deltas[n];
  }

  /** Reading a completed stream chunk by chunk. `partials` are the texts
      shown after each chunk that carries text: one per such chunk, each a
      prefix of the next, the last equal to the returned full text. */
  method StreamResponse(deltas: seq<Option<string>>) returns (full: string, partials: seq<string>)
    ensures full == StreamedText(deltas)
    ensures |partials| == TextChunks(deltas)
    ensures PrefixChain(partials)
    ensures forall i :: 0 <= i < |partials| ==> partials[i] <= full
    ensures partials != [] ==> partials[|partials| - 1] == full
    ensures partials == [] ==> full == ""
  {
    full := "";
    partials := [];
    var n := 0;
    while n < |deltas|
      invariant n <= |deltas|
      invariant full == StreamedText(deltas[..n])
      invariant |partials| == TextChunks(deltas[..n])
      invariant PrefixChain(partials)
      invariant partials != [] ==> partials[|partials| - 1] == full
      invariant partials == [] ==> full == ""
    {
      StreamStep(deltas, n);
      if deltas[n].Some? {
        PrefixChainExtend(partials, full, deltas[n].value);
        full := full + deltas[n].value;
        partials := partials + [full];
      }
      n := n + 1;
    }
    assert deltas[..n] == deltas;
    assert forall i :: 0 <= i < |partials| ==> partials[i] <= partials[|partials| - 1];
  }

  /** The assistant's answer: the streamed text, or the apology when the
      request or the stream failed, whatever was received before. */
  function GenerateChatResponse(result: StreamResult): (answer: string)
    ensures result.Broken? ==> answer == Apology
    ensures result.Completed? ==> answer == StreamedText(result.deltas)
  {
    match result
    case Completed(deltas) => StreamedText(deltas)
    case Broken(_, _) => Apology
  }

  /** The messages sent for one user input: the language model classifies
      the input, and the group found decides the composition. */
  function TurnMessages(catalog: seq<Catalog.EquipmentItem>, prompt: string,
                        classify: string -> Option<string>,
                        fetch: string -> Result<seq<ExerciseRecord>, string>): (messages: seq<ChatMessage>)
    ensures 2 <= |messages| <= 3
    ensures messages[0].role == System
    ensures messages[1] == ChatMessage(User, prompt)
    ensures |messages| == 2
            <==> classify(prompt).None? || Lower(classify(prompt).value) == NoMuscleGroup
    ensures |messages| == 3 ==> messages[2].role == Assistant
  {
    ComposeMessages(Catalog.AvailableEquipment(catalog), prompt, ExtractMuscleGroup(classify(prompt)), fetch)
  }

  /** One chat turn: the transcript gains the user's message, then the
      assistant's answer to the composed messages, and nothing else. */
  function ChatTurn(transcript: seq<ChatMessage>, prompt: string,
                    catalog: seq<Catalog.EquipmentItem>,
                    classify: string -> Option<string>,
                    fetch: string -> Result<seq<ExerciseRecord>, string>,
                    complete: seq<ChatMessage> -> StreamResult): (next: seq<ChatMessage>)
    ensures |next| == |transcript| + 2
    ensures next[..|transcript|] == transcript
    ensures next[|transcript|] == ChatMessage(User, prompt)
    ensures next[|transcript| + 1].role == Assistant
    ensures complete(TurnMessages(catalog, prompt, classify, fetch)).Broken?
            ==> next[|transcript| + 1].content == Apology
    ensures complete(TurnMessages(catalog, prompt, classify, fetch)).Completed?
            ==> next[|transcript| + 1].content
                == StreamedText(complete(TurnMessages(catalog, prompt, classify, fetch)).deltas)
  {
    var answer := GenerateChatResponse(complete(TurnMessages(catalog, prompt, classify, fetch)));
    transcript + [ChatMessage(User, prompt), ChatMessage(Assistant, answer)]
  }

  /** The stored transcript is never sent: the two messages a turn adds do
      not depend on the earlier turns. */
  lemma TurnIgnoresTranscript(t1: seq<ChatMessage>, t2: seq<ChatMessage>, prompt: string,
                              catalog: seq<Catalog.EquipmentItem>,
                              classify: string -> Option<string>,
                              fetch: string -> Result<seq<ExerciseRecord>, string>,
                              complete: seq<ChatMessage> -> StreamResult)
    ensures ChatTurn(t1, prompt, catalog, classify, fetch, complete)[|t1|..]
         == ChatTurn(t2, prompt, catalog, classify, fetch, complete)[|t2|..]
  {
  }

  /** The transcript after a session of turns, starting from an empty one. */
  function RunSession(prompts: seq<string>, catalog: seq<Catalog.EquipmentItem>,
                      classify: string -> Option<string>,
                      fetch: string -> Result<seq<ExerciseRecord>, string>,
                      complete: seq<ChatMessage> -> StreamResult): seq<ChatMessage>
  {
    if prompts == [] then []
    else ChatTurn(RunSession(prompts[..|prompts| - 1], catalog, classify, fetch, complete),
                  prompts[|prompts| - 1], catalog, classify, fetch, complete)
  }

  /** A session's transcript alternates user and assistant messages, one
      pair per input, and its user messages are the inputs in order. */
  lemma {:induction false} SessionAlternates(prompts: seq<string>, catalog: seq<Catalog.EquipmentItem>,
                                             classify: string -> Option<string>,
                                             fetch: string -> Result<seq<ExerciseRecord>, string>,
                                             complete: seq<ChatMessage> -> StreamResult)
    ensures var t := RunSession(prompts, catalog, classify, fetch, complete);
      && |t| == 2 * |prompts|
      && (forall i :: 0 <= i < |prompts| ==> t[2 * i] == ChatMessage(User, prompts[i]))
      && (forall i :: 0 <= i < |prompts| ==> t[2 * i + 1].role == Assistant)
  {
    if prompts != [] {
      var before := prompts[..|prompts| - 1];
      SessionAlternates(before, catalog, classify, fetch, complete);
      var t0 := RunSession(before, catalog, classify, fetch, complete);
      var t := RunSession(prompts, catalog, classify, fetch, complete);
      assert t == ChatTurn(t0, prompts[|prompts| - 1], catalog, classify, fetch, complete);
      forall i | 0 <= i < |prompts| - 1
        ensures t[2 * i] == ChatMessage(User, prompts[i]) && t[2 * i + 1].role == Assistant
      {
        assert t[2 * i] == t0[2 * i] && t[2 * i + 1] == t0[2 * i + 1];
        assert before[i] == prompts[i];
      }
    }
  }
}

=== FILE: exercises.dfy ===
/** The exercise side of the chat page (workout.py): classifying the user's
    text into a muscle group, fetching exercise records for it, and the
    bulleted summary of the first few records that goes into the prompt. */
module Exercises {
  import opened Wrappers
  import opened Text

  /** An exercise record of the external catalog service; only the two
      fields the application reads are kept. */
  datatype ExerciseRecord = ExerciseRecord(name: string, instructions: string)

  /** The label that means "no muscle group was mentioned". */
  const NoMuscleGroup: string := "none"

  /** At most this many records are summarised. */
  const MaxListedExercises: nat := 3

  /** Instructions are cut to this many characters. */
  const InstructionLimit: nat := 100

  const Bullet: string := "\U{2022} "
  const Ellipsis: string := "..."

  /** Classifying the user's text. `reply` is the language model's answer:
      `None` stands for every exception inside the call (network, key,
      missing content), which the source turns into the label "none". The
      label is always lower-case. */
  function ExtractMuscleGroup(reply: Option<string>): (group: string)
    ensures reply.None? ==> group == NoMuscleGroup
    ensures reply.Some? ==> group == Lower(reply.value)
    ensures Lower(group) == group
  {
    match reply
    case Some(content) => LowerIdempotent(content); Lower(content)
    case None => assert Lower(NoMuscleGroup) == NoMuscleGroup; NoMuscleGroup
  }

  /** Fetching exercises for a muscle group. The service is asked with the
      lower-cased group; a failed request yields no records. */
  function GetExerciseInfo(fetch: string -> Result<seq<ExerciseRecord>, string>, muscle: string): (exercises: seq<ExerciseRecord>)
    ensures fetch(Lower(muscle)).Failure? ==> exercises == []
    ensures fetch(Lower(muscle)).Success? ==> exercises == fetch(Lower(muscle)).value
  {
    match fetch(Lower(muscle))
    case Success(records) => records
    case Failure(_) => []
  }

  /** The request does not depend on the case of the muscle group: two
      groups with the same lower-case form get the same records. */
  lemma LookupIgnoresCase(fetch: string -> Result<seq<ExerciseRecord>, string>, a: string, b: string)
    requires Lower(a) == Lower(b)
    ensures GetExerciseInfo(fetch, a) == GetExerciseInfo(fetch, b)
  {
  }

  /** In particular, swapping the case of the group changes nothing. */
  lemma LookupIgnoresSwapCase(fetch: string -> Result<seq<ExerciseRecord>, string>, muscle: string)
    ensures GetExerciseInfo(fetch, SwapCase(muscle)) == GetExerciseInfo(fetch, muscle)
  {
    LowerOfSwapCase(muscle);
    LookupIgnoresCase(fetch, SwapCase(muscle), muscle);
  }

  /** One summary line: a bullet, the name, a colon, at most the first 100
      characters of the instructions, and an ellipsis. */
  function FormatExercise(ex: ExerciseRecord): (line: string)
    ensures var k := |Bullet| + |ex.name| + 2;
      && |line| == k + (if |ex.instructions| <= InstructionLimit then |ex.instructions| else InstructionLimit) + |Ellipsis|
      && line[..k] == Bullet + ex.name + ": "
      && line[k..|line| - |Ellipsis|] <= ex.instructions
      && line[|line| - |Ellipsis|..] == Ellipsis
  {
    var cut := Take(ex.instructions, InstructionLimit);
    var line := Bullet + ex.name + ": " + cut + Ellipsis;
    assert line[|Bullet| + |ex.name| + 2..|line| - |Ellipsis|] == cut;
    line
  }

  function FormatExercises(exercises: seq<ExerciseRecord>): (lines: seq<string>)
    ensures |lines| == |exercises|
    ensures forall i :: 0 <= i < |exercises| ==> lines[i] == FormatExercise(exercises[i])
  {
    if exercises == [] then []
    else [FormatExercise(exercises[0])] + FormatExercises(exercises[1..])
  }

  /** The records that are summarised: the first three, or all if fewer. */
  function Listed(exercises: seq<ExerciseRecord>): (listed: seq<ExerciseRecord>)
    ensures |listed| == if |exercises| <= MaxListedExercises then |exercises| else MaxListedExercises
    ensures listed <= exercises
  {
    if |exercises| <= MaxListedExercises then exercises else exercises[..MaxListedExercises]
  }

  /** The summary put into the prompt: the listed records' lines joined by
      newlines. */
  function ExerciseSummary(exercises: seq<ExerciseRecord>): (summary: string)
    ensures summary == [] <==> exercises == []
    ensures exercises != [] ==> FormatExercise(exercises[0]) <= summary
  {
    var lines := FormatExercises(Listed(exercises));
    assert lines != [] ==> |lines[0]| > 0 && lines[0] <= Join("\n", lines);
    Join("\n", lines)
  }

  /** A record whose summary line holds no line break: none in the name,
      and none in the part of the instructions that is kept. */
  predicate SingleLine(ex: ExerciseRecord)
  {
    '\n' !in ex.name && '\n' !in Take(ex.instructions, InstructionLimit)
  }

  lemma FormatExerciseSingleLine(ex: ExerciseRecord)
    requires SingleLine(ex)
    ensures '\n' !in FormatExercise(ex)
  {
    var cut := Take(ex.instructions, InstructionLimit);
    assert Bullet + ex.name + ": " + cut + Ellipsis == FormatExercise(ex);
  }

  /** When the listed records hold no line breaks, the summary has exactly
      one line per listed record, in order: at most three lines, each the
      formatted record at the same position. */
  lemma SummaryLines(exercises: seq<ExerciseRecord>)
    requires exercises != []
    requires forall i :: 0 <= i < |exercises| && i < MaxListedExercises ==> SingleLine(exercises[i])
    ensures var lines := Split(ExerciseSummary(exercises), '\n');
      && |lines| == (if |exercises| <= MaxListedExercises then |exercises| else MaxListedExercises)
      && forall i :: 0 <= i < |lines| ==> lines[i] == FormatExercise(exercises[i])
  {
    var listed := Listed(exercises);
    var lines := FormatExercises(listed);
    forall k | 0 <= k < |lines|
      ensures '\n' !in lines[k]
    {
      FormatExerciseSingleLine(listed[k]);
    }
    SplitJoin(lines, '\n');
  }
}

=== FILE: history.dfy ===
/** The workout history of the analysis page (analysis.py): loading a
    user's log, the statistics computed over it, and the text returned by
    the analysis request. Dates are day numbers. */
module History {
  import opened Wrappers
  import opened Text

  /** One logged exercise: its day, what was done, and the three sets. */
  datatype LogEntry = LogEntry(date: int, exerciseName: string, muscleGroup: string,
                               workoutType: string, difficulty: string,
                               firstSet: string, secondSet: string, thirdSet: string)

  /** What reading the user's log file gave: no file, text that is not
      valid JSON, or the decoded list of entries. */
  datatype LogSource = FileMissing | MalformedJson | Decoded(records: seq<LogEntry>)

  /** Loading the log: a missing file, malformed JSON and an empty list all
      mean "no data"; otherwise the entries as decoded, never empty. */
  function LoadWorkoutLog(source: LogSource): (log: Option<seq<LogEntry>>)
    ensures log.Some? <==> source.Decoded? && source.records != []
    ensures log.Some? ==> log.value == source.records && |log.value| > 0
  {
    match source
    case Decoded(records) => if records == [] then None else Some(records)
    case _ => None
  }

  /** The earliest day of a non-empty log. */
  function EarliestDate(log: seq<LogEntry>): (day: int)
    requires log != []
    ensures exists i :: 0 <= i < |log| && log[i].date == day
    ensures forall i :: 0 <= i < |log| ==> day <= log[i].date
  {
    if |log| == 1 then log[0].date
    else
      var rest := EarliestDate(log[1..]);
      if log[0].date <= rest then log[0].date else rest
  }

  /** The latest day of a non-empty log. */
  function LatestDate(log: seq<LogEntry>): (day: int)
    requires log != []
    ensures exists i :: 0 <= i < |log| && log[i].date == day
    ensures forall i :: 0 <= i < |log| ==> log[i].date <= day
  {
    if |log| == 1 then log[0].date
    else
      var rest := LatestDate(log[1..]);
      if log[0].date >= rest then log[0].date else rest
  }

  /** The distinct days on which something was logged. */
  function ActiveDates(log: seq<LogEntry>): set<int>
  {
    set i | 0 <= i < |log| :: log[i].date
  }

  /** There are no more distinct days than entries. */
  lemma {:induction false} ActiveDatesAtMostEntries(log: seq<LogEntry>)
    ensures |ActiveDates(log)| <= |log|
    decreases |log|
  {
    if log != [] {
      var front := log[..|log| - 1];
      ActiveDatesAtMostEntries(front);
      assert ActiveDates(log) == ActiveDates(front) + {log[|log| - 1].date} by {
        forall d | d in ActiveDates(log)
          ensures d in ActiveDates(front) + {log[|log| - 1].date}
        {
          var i :| 0 <= i < |log| && log[i].date == d;
          if i < |log| - 1 {
            assert front[i] == log[i];
          }
        }
        forall d | d in ActiveDates(front)
          ensures d in ActiveDates(log)
        {
          var i :| 0 <= i < |front| && front[i].date == d;
          assert log[i] == front[i];
        }
      }
    }
  }

  /** A set of days inside `lo..hi` has at most `hi - lo + 1` members. */
  lemma {:induction false} DaysWithinSpan(days: set<int>, lo: int, hi: int)
    requires lo <= hi + 1
    requires forall d :: d in days ==> lo <= d <= hi
    ensures |days| <= hi - lo + 1
    decreases hi - lo + 1
  {
    if lo <= hi {
      DaysWithinSpan(days - {hi}, lo, hi - 1);
    } else {
      assert forall d :: d !in days;
      assert days == {};
    }
  }

  /** A non-empty log has at least one active day, and no more than its
      entries or the days of its span. */
  lemma ActiveDatesBounds(log: seq<LogEntry>)
    requires log != []
    ensures 1 <= |ActiveDates(log)| <= |log|
    ensures |ActiveDates(log)| <= LatestDate(log) - EarliestDate(log) + 1
  {
    var dates := ActiveDates(log);
    var first := EarliestDate(log);
    var last := LatestDate(log);
    assert log[0].date in dates;
    ActiveDatesAtMostEntries(log);
    forall d | d in dates
      ensures first <= d <= last
    {
      var i :| 0 <= i < |log| && log[i].date == d;
    }
    DaysWithinSpan(dates, first, last);
  }

  /** The categorical columns that get a frequency table. */
  datatype Category = MuscleGroup | WorkoutType | Difficulty

  function CategoryOf(entry: LogEntry, category: Category): string
  {
    match category
    case MuscleGroup => entry.muscleGroup
    case WorkoutType => entry.workoutType
    case Difficulty => entry.difficulty
  }

  /** A column of the log, one value per entry, in log order. */
  function Column(log: seq<LogEntry>, category: Category): (values: seq<string>)
    ensures |values| == |log|
    ensures forall i :: 0 <= i < |log| ==> values[i] == CategoryOf(log[i], category)
  {
    if log == [] then []
    else [CategoryOf(log[0], category)] + Column(log[1..], category)
  }

  /** A frequency table: every value that occurs, with its number of
      occurrences. */
  function Frequencies(values: seq<string>): (table: map<string, nat>)
    ensures forall v :: v in table <==> v in values
    ensures forall v :: v in table ==> table[v] == multiset(values)[v]
  {
    if values == [] then map[]
    else
      var front := values[..|values| - 1];
      var v := values[|values| - 1];
      assert values == front + [v];
      var rest := Frequencies(front);
      rest[v := (if v in rest then rest[v] else 0) + 1]
  }

  /** The values that occur, each once, in order of first appearance. */
  function Distinct(values: seq<string>): (keys: seq<string>)
    ensures forall v :: v in keys <==> v in values
    ensures forall i, j :: 0 <= i < j < |keys| ==> keys[i] != keys[j]
  {
    if values == [] then []
    else
      var front := values[..|values| - 1];
      var v := values[|values| - 1];
      assert values == front + [v];
      var keys := Distinct(front);
      if v in keys then keys else keys + [v]
  }

  /** The sum of the table's counts over the given keys. */
  function SumOver(keys: seq<string>, table: map<string, nat>): nat
    requires forall k :: k in keys ==> k in table
  {
    if keys == [] then 0
    else SumOver(keys[..|keys| - 1], table) + table[keys[|keys| - 1]]
  }

  lemma {:induction false} SumOverUnchanged(keys: seq<string>, t1: map<string, nat>, t2: map<string, nat>)
    requires forall k :: k in keys ==> k in t1 && k in t2 && t1[k] == t2[k]
    ensures SumOver(keys, t1) == SumOver(keys, t2)
    decreases |keys|
  {
    if keys != [] {
      var front := keys[..|keys| - 1];
      assert forall k :: k in front ==> k in keys;
      SumOverUnchanged(front, t1, t2);
    }
  }

  /** Adding one to the count of a key listed once adds one to the sum. */
  lemma {:induction false} SumOverBump(keys: seq<string>, table: map<string, nat>, v: string)
    requires forall k :: k in keys ==> k in table
    requires forall i, j :: 0 <= i < j < |keys| ==> keys[i] != keys[j]
    requires v in keys
    ensures SumOver(keys, table[v := table[v] + 1]) == SumOver(keys, table) + 1
    decreases |keys|
  {
    var front := keys[..|keys| - 1];
    var last := keys[|keys| - 1];
    var bumped := table[v := table[v] + 1];
    assert forall k :: k in front ==> k in keys;
    if last == v {
      assert v !in front;
      SumOverUnchanged(front, table, bumped);
    } else {
      assert v in front by {
        var i :| 0 <= i < |keys| && keys[i] == v;
        assert front[i] == v;
      }
      SumOverBump(front, table, v);
    }
  }

  /** The counts of a frequency table add up to the number of values. */
  lemma {:induction false} FrequenciesTotal(values: seq<string>)
    ensures SumOver(Distinct(values), Frequencies(values)) == |values|
    decreases |values|
  {
    if values != [] {
      var front := values[..|values| - 1];
      var v := values[|values| - 1];
      var keys := Distinct(front);
      var table := Frequencies(front);
      FrequenciesTotal(front);
      if v in keys {
        assert Frequencies(values) == table[v := table[v] + 1];
        SumOverBump(keys, table, v);
      } else {
        assert Frequencies(values) == table[v := 1];
        SumOverUnchanged(keys, table, table[v := 1]);
        assert (keys + [v])[..|keys|] == keys;
      }
    }
  }

  /** The statistics of a log sent to the analysis request. */
  datatype Stats = Stats(startDate: int, endDate: int, totalDays: nat,
                         totalWorkouts: nat, daysActive: nat,
                         muscleGroups: map<string, nat>,
                         workoutTypes: map<string, nat>,
                         difficulties: map<string, nat>)

  /** The statistics of a non-empty log: first and last day, the inclusive
      span in days, the number of entries, the number of distinct days, and
      a frequency table for each of muscle group, workout type and
      difficulty. A day is active only once, however many entries it has. */
  function Summarize(log: seq<LogEntry>): (stats: Stats)
    requires log != []
    ensures stats.startDate == EarliestDate(log) && stats.endDate == LatestDate(log)
    ensures stats.totalDays == stats.endDate - stats.startDate + 1 >= 1
    ensures stats.totalWorkouts == |log|
    ensures stats.daysActive == |ActiveDates(log)|
    ensures 1 <= stats.daysActive <= stats.totalWorkouts
    ensures stats.daysActive <= stats.totalDays
    ensures stats.muscleGroups == Frequencies(Column(log, MuscleGroup))
    ensures stats.workoutTypes == Frequencies(Column(log, WorkoutType))
    ensures stats.difficulties == Frequencies(Column(log, Difficulty))
  {
    var first := EarliestDate(log);
    var last := LatestDate(log);
    var dates := ActiveDates(log);
    ActiveDatesBounds(log);
    Stats(first, last, last - first + 1, |log|, |dates|,
          Frequencies(Column(log, MuscleGroup)),
          Frequencies(Column(log, WorkoutType)),
          Frequencies(Column(log, Difficulty)))
  }

  /** Each frequency table counts every entry once: its counts over the
      distinct values add up to the number of entries. */
  lemma SummaryTablesCountEveryEntry(log: seq<LogEntry>)
    requires log != []
    ensures var stats := Summarize(log);
      && SumOver(Distinct(Column(log, MuscleGroup)), stats.muscleGroups) == stats.totalWorkouts
      && SumOver(Distinct(Column(log, WorkoutType)), stats.workoutTypes) == stats.totalWorkouts
      && SumOver(Distinct(Column(log, Difficulty)), stats.difficulties) == stats.totalWorkouts
  {
    FrequenciesTotal(Column(log, MuscleGroup));
    FrequenciesTotal(Column(log, WorkoutType));
    FrequenciesTotal(Column(log, Difficulty));
  }

  const PeriodPrefix: string := "\nAnalysis Period: "
  const FallbackPrefix: string := "Unable to generate AI analysis: "

  /** The line put before the model's text: first and last day, and the
      span in days. */
  function PeriodHeader(stats: Stats, formatDate: int -> string): (header: string)
    ensures var digits := NatToDecimal(stats.totalDays);
      var tail := " (" + digits + " days)";
      && |header| >= |PeriodPrefix| + |tail|
      && header[..|PeriodPrefix|] == PeriodPrefix
      && header[|header| - |tail|..] == tail
      && DecimalValue(digits) == stats.totalDays
  {
    DecimalRoundTrip(stats.totalDays);
    PeriodPrefix + formatDate(stats.startDate) + " to " + formatDate(stats.endDate)
      + " (" + NatToDecimal(stats.totalDays) + " days)"
  }

  /** The analysis text for a log. `service` is the completion service's
      answer to the statistics, a failure standing for any exception it
      raises; `formatDate` renders a day. Success gives the period header, a
      blank line and the model's text; any failure gives the fallback
      prefix and the error text alone. The page only asks for an analysis
      of a log that loaded with at least one entry. */
  function GetAiAnalysis(log: seq<LogEntry>, formatDate: int -> string,
                         service: Stats -> Result<string, string>): (text: string)
    requires log != []
    ensures service(Summarize(log)).Failure?
            ==> text == FallbackPrefix + service(Summarize(log)).error
    ensures service(Summarize(log)).Success?
            ==> text == PeriodHeader(Summarize(log), formatDate) + "\n\n" + service(Summarize(log)).value
  {
    var stats := Summarize(log);
    match service(stats)
      case Success(analysis) => PeriodHeader(stats, formatDate) + "\n\n" + analysis
      case Failure(error) => FallbackPrefix + error
  }

  /** The two outcomes cannot be confused: the text starts with the period
      prefix exactly when the request succeeded, and with the fallback
      prefix exactly when it failed. */
  lemma AnalysisOutcomeIsRecognisable(log: seq<LogEntry>, formatDate: int -> string,
                                      service: Stats -> Result<string, string>)
    requires log != []
    ensures var text := GetAiAnalysis(log, formatDate, service);
      var succeeded := service(Summarize(log)).Success?;
      && (PeriodPrefix <= text <==> succeeded)
      && (FallbackPrefix <= text <==> !succeeded)
  {
    var stats := Summarize(log);
    OutcomePrefixes(PeriodHeader(stats, formatDate), service(stats));
  }

  /** The text built from a header that starts with the period prefix and a
      reply starts with the period prefix exactly on success, and with the
      fallback prefix exactly on failure. */
  lemma OutcomePrefixes(header: string, reply: Result<string, string>)
    requires PeriodPrefix <= header
    ensures var text := if reply.Success? then header + "\n\n" + reply.value else FallbackPrefix + reply.error;
      && (PeriodPrefix <= text <==> reply.Success?)
      && (FallbackPrefix <= text <==> reply.Failure?)
  {
    assert PeriodPrefix[0] != FallbackPrefix[0];
    if reply.Success? {
      var text := header + "\n\n" + reply.value;
      assert text[..|PeriodPrefix|] == header[..|PeriodPrefix|];
    } else {
      var text := FallbackPrefix + reply.error;
      assert text[..|FallbackPrefix|] == FallbackPrefix;
    }
  }

  /** The header reports the span: the number between the parentheses reads
      back as the last day minus the first day plus one. */
  lemma PeriodHeaderReportsSpan(log: seq<LogEntry>, formatDate: int -> string)
    requires log != []
    ensures var stats := Summarize(log);
      var digits := NatToDecimal(stats.totalDays);
      && PeriodHeader(stats, formatDate)
         == PeriodPrefix + formatDate(EarliestDate(log)) + " to " + formatDate(LatestDate(log))
            + " (" + digits + " days)"
      && DecimalValue(digits) == LatestDate(log) - EarliestDate(log) + 1
  {
    DecimalRoundTrip(Summarize(log).totalDays);
  }

  /** A log of one chest entry and one back entry two days later spans three
      days, two of them active, each group counted once. */
  lemma TwoEntryExample(first: LogEntry, second: LogEntry)
    requires first.muscleGroup == "chest" && second.muscleGroup == "back"
    requires second.date == first.date + 2
    ensures var stats := Summarize([first, second]);
      && stats.totalDays == 3
      && stats.daysActive == 2
      && stats.muscleGroups == map["chest" := 1, "back" := 1]
  {
    var log := [first, second];
    assert log[1..] == [second];
    assert EarliestDate(log) == first.date;
    assert LatestDate(log) == second.date;
    var dates := ActiveDates(log);
    assert dates == {first.date, second.date} by {
      assert log[0].date == first.date && log[1].date == second.date;
    }
    assert |dates| == 2;
    assert Column(log, MuscleGroup) == ["chest", "back"];
    FrequenciesOfTwo("chest", "back");
  }

  lemma FrequenciesOfTwo(a: string, b: string)
    requires a != b
    ensures Frequencies([a, b]) == map[a := 1, b := 1]
  {
  }
}

=== FILE: text.dfy ===
/** The string operations the application relies on: Python's `str.lower`
    and `str.swapcase`, slicing a prefix, `str.join`, splitting on one
    character, and the decimal rendering an f-string gives an integer. */
module Text {

  /** Lower-cases one character; only the ASCII capitals are mapped. */
  function LowerChar(c: char): char
  {
    if 'A' <= c <= 'Z' then (c as int + 32) as char else c
  }

  /** Exchanges the case of one ASCII letter; other characters are kept. */
  function SwapCaseChar(c: char): char
  {
    if 'A' <= c <= 'Z' then (c as int + 32) as char
    else if 'a' <= c <= 'z' then (c as int - 32) as char
    else c
  }

  /** `s.lower()`: every character lower-cased, the length unchanged. */
  function Lower(s: string): (r: string)
    ensures |r| == |s|
    ensures forall i :: 0 <= i < |s| ==> r[i] == LowerChar(s[i])
  {
    if s == [] then [] else [LowerChar(s[0])] + Lower(s[1..])
  }

  /** `s.swapcase()`. */
  function SwapCase(s: string): (r: string)
    ensures |r| == |s|
    ensures forall i :: 0 <= i < |s| ==> r[i] == SwapCaseChar(s[i])
  {
    if s == [] then [] else [SwapCaseChar(s[0])] + SwapCase(s[1..])
  }

  /** Lower-casing twice is lower-casing once. */
  lemma LowerIdempotent(s: string)
    ensures Lower(Lower(s)) == Lower(s)
  {
  }

  /** Swapping the case of a string does not change its lower-case form. */
  lemma LowerOfSwapCase(s: string)
    ensures Lower(SwapCase(s)) == Lower(s)
  {
  }

  /** `s[:n]` for a non-negative `n`: the first `min(n, len(s))` characters. */
  function Take(s: string, n: nat): (r: string)
    ensures |r| == if |s| <= n then |s| else n
    ensures r <= s
  {
    if |s| <= n then s else s[..n]
  }

  /** The three pieces of a concatenation can be sliced back out of it. */
  lemma ThreeParts(a: string, b: string, c: string)
    ensures var s := a + b + c;
      && |s| == |a| + |b| + |c|
      && s[..|a|] == a
      && s[|a|..|a| + |b|] == b
      && s[|a| + |b|..] == c
  {
  }

  /** `sep.join(parts)`. */
  function Join(sep: string, parts: seq<string>): string
    decreases |parts|
  {
    if |parts| == 0 then ""
    else if |parts| == 1 then parts[0]
    else parts[0] + sep + Join(sep, parts[1..])
  }

  /** The position of the first occurrence of `c` in `s`. */
  function IndexOf(s: string, c: char): (i: nat)
    requires c in s
    ensures i < |s| && s[i] == c
    ensures c !in s[..i]
  {
    if s[0] == c then 0
    else
      var j := IndexOf(s[1..], c);
      assert s[..j + 1] == [s[0]] + s[1..][..j];
      j + 1
  }

  /** `s.split(c)`: the pieces between the occurrences of `c`, never empty. */
  function Split(s: string, c: char): (parts: seq<string>)
    ensures |parts| >= 1
    decreases |s|
  {
    if c !in s then [s]
    else
      var i := IndexOf(s, c);
      [s[..i]] + Split(s[i + 1..], c)
  }

  /** Splitting text that starts with a piece free of the separator, then
      the separator, gives that piece followed by the split of the rest. */
  lemma SplitFirst(head: string, c: char, rest: string)
    requires c !in head
    ensures Split(head + [c] + rest, c) == [head] + Split(rest, c)
  {
    var s := head + [c] + rest;
    assert s[|head|] == c;
    assert s[..|head|] == head;
    var i := IndexOf(s, c);
    assert i == |head|;
    assert s[i + 1..] == rest;
  }

  /** Splitting a join on its one-character separator gives the parts back,
      provided no part contains the separator. */
  lemma {:induction false} SplitJoin(parts: seq<string>, c: char)
    requires |parts| >= 1
    requires forall k :: 0 <= k < |parts| ==> c !in parts[k]
    ensures Split(Join([c], parts), c) == parts
    decreases |parts|
  {
    if |parts| > 1 {
      SplitFirst(parts[0], c, Join([c], parts[1..]));
      SplitJoin(parts[1..], c);
    }
  }

  predicate IsDigit(c: char)
  {
    '0' <= c <= '9'
  }

  function DigitChar(d: nat): (c: char)
    requires d < 10
    ensures IsDigit(c)
  {
    ('0' as int + d) as char
  }

  function DigitValue(c: char): (d: nat)
    requires IsDigit(c)
    ensures d < 10
  {
    c as int - '0' as int
  }

  predicate AllDigits(s: string)
  {
    forall i :: 0 <= i < |s| ==> IsDigit(s[i])
  }

  /** How an f-string renders a non-negative integer: decimal digits, most
      significant first, with no leading zero except for zero itself. */
  function NatToDecimal(n: nat): (r: string)
    ensures |r| >= 1
    ensures AllDigits(r)
    ensures r[0] == '0' <==> n == 0
    ensures n == 0 ==> r == "0"
  {
    if n < 10 then [DigitChar(n)]
    else NatToDecimal(n / 10) + [DigitChar(n % 10)]
  }

  /** The number a string of decimal digits denotes. */
  function DecimalValue(s: string): nat
    requires AllDigits(s)
  {
    if s == [] then 0
    else 10 * DecimalValue(s[..|s| - 1]) + DigitValue(s[|s| - 1])
  }

  /** Reading back the rendered digits gives the number. */
  lemma {:induction false} DecimalRoundTrip(n: nat)
    ensures DecimalValue(NatToDecimal(n)) == n
  {
    var r := NatToDecimal(n);
    if n >= 10 {
      DecimalRoundTrip(n / 10);
      assert r[..|r| - 1] == NatToDecimal(n / 10);
    }
  }
}

=== FILE: view.dfy ===
/** The exercise-history table of the analysis page (analysis.py): three
    optional equality filters combined with "and", then the entries shown
    newest first. */
module View {
  import opened History

  /** The selection that places no constraint on its column. */
  const AllOption: string := "All"

  /** A selection admits a value when it is "All" or equal to the value. */
  predicate Admits(selection: string, value: string)
  {
    selection == AllOption || value == selection
  }

  /** An entry passes all three selections. */
  predicate Selected(entry: LogEntry, workoutType: string, muscleGroup: string, difficulty: string)
  {
    && Admits(workoutType, entry.workoutType)
    && Admits(muscleGroup, entry.muscleGroup)
    && Admits(difficulty, entry.difficulty)
  }

  /** Keeping the entries that pass a test, in their original order. */
  function KeepWhere(log: seq<LogEntry>, keep: LogEntry -> bool): seq<LogEntry>
  {
    if log == [] then []
    else KeepWhere(log[..|log| - 1], keep) + (if keep(log[|log| - 1]) then [log[|log| - 1]] else [])
  }

  /** Every kept entry passes the test, and every entry that passes is kept
      as often as it occurs in the log. */
  lemma {:induction false} KeepWhereKeepsExactly(log: seq<LogEntry>, keep: LogEntry -> bool)
    ensures var kept := KeepWhere(log, keep);
      && (forall i :: 0 <= i < |kept| ==> keep(kept[i]))
      && (forall e :: multiset(kept)[e] == if keep(e) then multiset(log)[e] else 0)
    decreases |log|
  {
    if log != [] {
      var front := log[..|log| - 1];
      var last := log[|log| - 1];
      assert log == front + [last];
      KeepWhereKeepsExactly(front, keep);
    }
  }

  /** Two tests that agree on every entry keep the same entries. */
  lemma {:induction false} KeepWhereAgrees(log: seq<LogEntry>, p: LogEntry -> bool, q: LogEntry -> bool)
    requires forall e :: p(e) == q(e)
    ensures KeepWhere(log, p) == KeepWhere(log, q)
    decreases |log|
  {
    if log != [] {
      KeepWhereAgrees(log[..|log| - 1], p, q);
    }
  }

  /** Keeping by `p` and then by `q` keeps what passes both, in order. */
  lemma {:induction false} KeepWhereTwice(log: seq<LogEntry>, p: LogEntry -> bool, q: LogEntry -> bool)
    ensures KeepWhere(KeepWhere(log, p), q) == KeepWhere(log, e => p(e) && q(e))
    decreases |log|
  {
    if log != [] {
      var front := log[..|log| - 1];
      var last := log[|log| - 1];
      KeepWhereTwice(front, p, q);
      var once := KeepWhere(front, p);
      var both := (e: LogEntry) => p(e) && q(e);
      assert KeepWhere(log, both) == KeepWhere(front, both) + (if both(last) then [last] else []);
      if p(last) {
        var extended := once + [last];
        assert KeepWhere(log, p) == extended;
        assert extended[..|extended| - 1] == once;
        assert extended[|extended| - 1] == last;
        assert KeepWhere(extended, q) == KeepWhere(once, q) + (if q(last) then [last] else []);
      } else {
        assert KeepWhere(log, p) == once;
      }
    }
  }

  /** The order in which two filters are applied does not matter. */
  lemma FilterOrderIrrelevant(log: seq<LogEntry>, p: LogEntry -> bool, q: LogEntry -> bool)
    ensures KeepWhere(KeepWhere(log, p), q) == KeepWhere(KeepWhere(log, q), p)
  {
    KeepWhereTwice(log, p, q);
    KeepWhereTwice(log, q, p);
    KeepWhereAgrees(log, e => p(e) && q(e), e => q(e) && p(e));
  }

  /** Applying one selection; "All" leaves the entries untouched. */
  function ApplySelection(log: seq<LogEntry>, selection: string, column: Category): seq<LogEntry>
  {
    if selection != AllOption then KeepWhere(log, e => CategoryOf(e, column) == selection) else log
  }

  lemma ApplySelectionIsKeepWhere(log: seq<LogEntry>, selection: string, column: Category)
    ensures ApplySelection(log, selection, column) == KeepWhere(log, e => Admits(selection, CategoryOf(e, column)))
  {
    if selection != AllOption {
      KeepWhereAgrees(log, e => CategoryOf(e, column) == selection, e => Admits(selection, CategoryOf(e, column)));
    } else {
      KeepAllIsIdentity(log, e => Admits(selection, CategoryOf(e, column)));
    }
  }

  lemma {:induction false} KeepAllIsIdentity(log: seq<LogEntry>, keep: LogEntry -> bool)
    requires forall e :: keep(e)
    ensures KeepWhere(log, keep) == log
    decreases |log|
  {
    if log != [] {
      KeepAllIsIdentity(log[..|log| - 1], keep);
    }
  }

  /** The filtered entries, selections applied one after another as the
      page does: workout type, then muscle group, then difficulty. The three
      filters together are one pass keeping exactly the entries that pass
      every selection, in their original order: every kept entry passes,
      and every passing entry is kept as often as it occurs. */
  function FilterEntries(log: seq<LogEntry>, workoutType: string, muscleGroup: string, difficulty: string): (kept: seq<LogEntry>)
    ensures kept == KeepWhere(log, e => Selected(e, workoutType, muscleGroup, difficulty))
    ensures forall i :: 0 <= i < |kept| ==> Selected(kept[i], workoutType, muscleGroup, difficulty)
    ensures forall e :: multiset(kept)[e]
                        == if Selected(e, workoutType, muscleGroup, difficulty) then multiset(log)[e] else 0
  {
    var byType := ApplySelection(log, workoutType, WorkoutType);
    var byMuscle := ApplySelection(byType, muscleGroup, MuscleGroup);
    var kept := ApplySelection(byMuscle, difficulty, Difficulty);
    var pt := (e: LogEntry) => Admits(workoutType, CategoryOf(e, WorkoutType));
    var pm := (e: LogEntry) => Admits(muscleGroup, CategoryOf(e, MuscleGroup));
    var pd := (e: LogEntry) => Admits(difficulty, CategoryOf(e, Difficulty));
    var both := (e: LogEntry) => pt(e) && pm(e);
    ApplySelectionIsKeepWhere(log, workoutType, WorkoutType);
    ApplySelectionIsKeepWhere(byType, muscleGroup, MuscleGroup);
    ApplySelectionIsKeepWhere(byMuscle, difficulty, Difficulty);
    KeepWhereTwice(log, pt, pm);
    KeepWhereTwice(log, both, pd);
    KeepWhereAgrees(log, e => both(e) && pd(e), e => Selected(e, workoutType, muscleGroup, difficulty));
    KeepWhereKeepsExactly(log, e => Selected(e, workoutType, muscleGroup, difficulty));
    kept
  }

  /** With every selection "All" the table shows the whole log. */
  lemma AllSelectionsKeepEverything(log: seq<LogEntry>)
    ensures FilterEntries(log, AllOption, AllOption, AllOption) == log
  {
  }

  /** Every entry is dated no later than the one before it. */
  predicate NewestFirst(view: seq<LogEntry>)
  {
    forall i, j :: 0 <= i < j < |view| ==> view[i].date >= view[j].date
  }

  /** Placing an entry into a newest-first list. */
  function InsertByDate(entry: LogEntry, sorted: seq<LogEntry>): (r: seq<LogEntry>)
    requires NewestFirst(sorted)
    ensures NewestFirst(r)
    ensures multiset(r) == multiset(sorted) + multiset{entry}
  {
    if sorted == [] || entry.date >= sorted[0].date then [entry] + sorted
    else
      var rest := InsertByDate(entry, sorted[1..]);
      assert sorted == [sorted[0]] + sorted[1..];
      HeadIsNewest(entry, sorted, rest);
      [sorted[0]] + rest
  }

  /** When the entry is older than the head of a newest-first list, the head
      is at least as new as every entry of the remaining list with the
      entry placed in it. */
  lemma HeadIsNewest(entry: LogEntry, sorted: seq<LogEntry>, rest: seq<LogEntry>)
    requires NewestFirst(sorted)
    requires sorted != [] && entry.date < sorted[0].date
    requires multiset(rest) == multiset(sorted[1..]) + multiset{entry}
    ensures forall j :: 0 <= j < |rest| ==> sorted[0].date >= rest[j].date
  {
    forall j | 0 <= j < |rest|
      ensures sorted[0].date >= rest[j].date
    {
      assert rest[j] in multiset(rest);
      if rest[j] != entry {
        assert rest[j] in multiset(sorted[1..]);
        var k :| 0 <= k < |sorted[1..]| && sorted[1..][k] == rest[j];
        assert sorted[k + 1] == rest[j];
      }
    }
  }

  /** The entries ordered by date, newest first; entries of the same day
      may come in any order. */
  function SortByDateDescending(log: seq<LogEntry>): (view: seq<LogEntry>)
    ensures NewestFirst(view)
    ensures multiset(view) == multiset(log)
  {
    if log == [] then []
    else
      assert log == [log[0]] + log[1..];
      InsertByDate(log[0], SortByDateDescending(log[1..]))
  }

  /** The table shown: the filtered entries, newest first. It holds exactly
      the entries passing every selection, each as often as in the log. */
  function DisplayedHistory(log: seq<LogEntry>, workoutType: string, muscleGroup: string, difficulty: string): (view: seq<LogEntry>)
    ensures NewestFirst(view)
    ensures multiset(view) == multiset(FilterEntries(log, workoutType, muscleGroup, difficulty))
    ensures forall e :: multiset(view)[e]
                        == if Selected(e, workoutType, muscleGroup, difficulty) then multiset(log)[e] else 0
  {
    SortByDateDescending(FilterEntries(log, workoutType, muscleGroup, difficulty))
  }
}

=== FILE: wrappers.dfy ===
/** Failure-carrying datatypes used to stand for the answers of external
    services: a value that may be absent, and a value or an error text. */
module Wrappers {

  /** A value that may be missing (Python's `None`). */
  datatype Option<+T> = None | Some(value: T)

  /** Either a successful value or an error, as an exception would carry. */
  datatype Result<+R, +E> = Success(value: R) | Failure(error: E)
}
